=== FILE: README.md ===
# Ataxx: AI move choice and GUI command logic

A Dafny model of three pieces of the Ataxx game's sequential logic:

- the AI player (`ataxx/AIPlayer.java`): enumerating candidate moves for a colour,
  scoring a move by captures, distance penalty, piece control and mobility, and picking
  one of the best-scoring moves;
- the move-shape classification (`Move.isClone`, `Move.isJump`) as the unit tests in
  `ataxx/MoveTest.java` fix it;
- the GUI's command logic (`ataxx/GUI.java`): pixel-to-cell mapping, cell notation, the
  mouse listener with its block-placement mode, the player combo boxes, the "New" button,
  and the loop that turns queued events into text commands.

The `Board` class is not part of this model. The model sees a board only through its interface:

- `Boards.Board` holds the flat content store (`int -> PieceState`) and the side to move;
- `Boards.Rules` gathers `Board.index`, `moveLegal`, `createMove`, the cell-addressed
  `getContent` and `setBlock` as function-valued parameters, with nothing assumed about them.

Every property below therefore holds for any board whose operations are total and do not throw.
`PieceState.opposite` is modelled on the two colours only, as a swap.

Module layout: `Pieces`, `Moves`, `Boards` (value types and the board interface),
`MoveCases` (the unit-test cases), `MoveGen`, `Scoring`, `Selection` (the AI player),
`Gui`, and `Wrappers` (Option).

Modelling choices:

- **Loops.** Each nested Java loop becomes a pair of recursive functions. They walk the
  same ranges in the same order.
- **Capture offsets.** The capture count uses the literal offsets `7 * dr + dc`. The model
  does not assume these are the geometric neighbours. `Scoring.NeighbourStrideMatchesOnlyWidthSeven`
  shows that the row step fits only a store of width 7. `Scoring.CaptureWrapsOnUnpaddedSeven`
  and `Scoring.CaptureMissesOnPaddedNine` show the count going wrong under two concrete
  layouts of `Board.index`.
- **Distance penalty.** The penalty uses Manhattan distance, as the code does. A diagonal
  clone is therefore penalised like a jump.
- **Randomness.** `Collections.shuffle` and `Math.random` are nondeterministic choices
  inside `Selection.PickBest`. Its contract holds for every permutation and every index.
- **GUI task queue.** The queue is explicit in `Gui.GuiState`. Listeners append tokens;
  `Gui.GetCommand` takes them until a command is complete. An empty queue is reported as
  `Waiting`, because the source blocks there.
- **The PLAYER point.** The marker is one shared `Point`, read when it is taken from the
  queue, not when it is queued. Two selections queued before the loop takes the first
  therefore both report the second (`Gui.PlayerPointShared`).

Behaviour of the code worth noting:

- **Distance penalty.** It is 0 only for Manhattan distance 1. A diagonal clone is
  therefore penalised, although Ataxx treats every clone alike.
- **Capture count.** It reads the eight stride-7 offsets around `Board.index` of the
  destination. These are the cells around the destination only when the store is an
  unpadded width-7 grid, and even then the side offsets wrap to the neighbouring rows.
- **Moves and scores use different colours.** Candidates are generated for the board's
  side to move, but scored for the AI's own colour.
- **No legal move.** Ataxx lets a side without moves pass, but here `bestMoves.get` on an
  empty list throws before the `Move.pass()` fallback is reached. The model
  makes a non-empty candidate list a precondition instead.

## Model

| member | source | states |
|---|---|---|
| MoveGen.AssistPossibleMovesSpec | ataxx/AIPlayer.java:192-208 | the moves from one source are exactly the legal ones whose column and row offsets lie in -2..2 and are not both 0; they come column offset first, then row offset; at most 24 |
| MoveGen.PossibleMovesSpec | ataxx/AIPlayer.java:173-186 | a move is listed iff its source is a grid cell holding the colour, its destination is in reach and moveLegal accepts it; the list follows the scan (rows 7 to 1, columns a to g, then the offsets), so it has no repeats; at most 1176 moves |
| MoveGen.PossibleMovesAreClonesOrJumps | ataxx/AIPlayer.java:195-200 | every listed move has Chebyshev distance 1 or 2, so it is a clone or a jump and never goes from a cell to itself |
| Scoring.CapturedPiecesCountsNeighbours | ataxx/AIPlayer.java:107-116 | the capture count equals the number of the eight offsets 7*dr+dc around the destination index whose cell holds the opponent; so it lies in 0..8 |
| Scoring.NeighbourStrideMatchesOnlyWidthSeven | ataxx/AIPlayer.java:110 | the stride-7 row step equals the row step of a row-major store of width w only when w is 7 |
| Scoring.CaptureWrapsOnUnpaddedSeven | ataxx/AIPlayer.java:107-116 | with the unpadded width-7 index, a move to g2 on a post-move board holding only the mover's piece on g2 and an opponent piece on a3 scores one capture, although a3 is six columns from g2; all eight offsets from g2 lie inside the 49-cell store |
| Scoring.NeighbourOffsetsFromStride | ataxx/AIPlayer.java:107-111 | the eight offsets the capture loops read are exactly `7 * dr + dc` for dr, dc in -1..1, not both 0 |
| Scoring.CaptureMissesOnPaddedNine | ataxx/AIPlayer.java:107-116 | with a padded width-9 index, a move to b1 on a post-move board holding only the mover's piece on b1, an opponent piece on b2 (the cell above) and a Blocked border scores no capture |
| Scoring.DistancePenalty | ataxx/AIPlayer.java:119-120 | the penalty is 0 or 1 |
| Scoring.PenaltyVersusShape | ataxx/AIPlayer.java:119-120 | among clones, only orthogonal ones have penalty 0; every jump has penalty 1; penalty 0 implies a clone |
| Scoring.DiagonalClonePenalised | ataxx/AIPlayer.java:119-120 | c1-d2 is a clone with penalty 1, the same as the jump c1-c3; the orthogonal clone b1-b2 has penalty 0 |
| Scoring.ControlScore | ataxx/AIPlayer.java:139-157 | the control score lies in -49..49 |
| Scoring.ControlScoreAntisymmetric | ataxx/AIPlayer.java:139-157 | swapping the colour negates the control score |
| Scoring.PotentialMovesScore | ataxx/AIPlayer.java:159-164 | the mobility score lies in -1176..1176 |
| Scoring.PotentialMovesScoreAntisymmetric | ataxx/AIPlayer.java:159-164 | swapping the colour negates the mobility score |
| Scoring.Terms | ataxx/AIPlayer.java:98-124 | captures are in 0..8; the penalty is 0 exactly when the Manhattan distance is 1, and 1 otherwise; control is in -49..49; mobility is in -1176..1176 |
| Scoring.EvaluateMove | ataxx/AIPlayer.java:126-130 | the weighted score 10*captures - 2*penalty + 5*control + 3*mobility lies in -3775..3853, so the 32-bit arithmetic cannot overflow |
| Scoring.EvaluationReadsOnlyPostMoveBoard | ataxx/AIPlayer.java:100-101 | the score depends on the game board only through the board createMove returns |
| Selection.MaxScore | ataxx/AIPlayer.java:73-77 | the best score of a non-empty list is the score of one of its entries and no entry scores higher |
| Selection.SelectBest | ataxx/AIPlayer.java:70-81 | on a non-empty list, bestScore is the maximum score and bestMoves is non-empty; bestMoves holds, in list order, exactly the moves that reach bestScore; on an empty list the result is MIN_VALUE and no moves |
| Selection.TieSetIndependentOfOrder | ataxx/AIPlayer.java:67-81 | any reordering of the scored list gives the same best score and the same set of tied-best moves |
| Selection.ScoreEach | ataxx/AIPlayer.java:60-65 | the scored list pairs each candidate, in order, with its evaluation |
| Selection.PickBest | ataxx/AIPlayer.java:67-85 | for any non-empty list of int-range scores, whatever the shuffle and the random index, the move picked carries the maximum score of the list |
| Selection.FindMove | ataxx/AIPlayer.java:55-88 | given at least one candidate, the move returned is a candidate for the side to move, and no candidate scores higher |
| MoveCases.CloneTrueCases | ataxx/MoveTest.java:9-13 | c1-d2 and b1-b2 are clones |
| MoveCases.CloneFalseCases | ataxx/MoveTest.java:15-19 | c1-c1 and c1-c3 are not clones |
| MoveCases.JumpTrueCases | ataxx/MoveTest.java:22-26 | c1-d3 and c1-c3 are jumps |
| MoveCases.JumpFalseCases | ataxx/MoveTest.java:28-32 | c4-d3 and b2-b5 are not jumps |
| MoveCases.CloneFalseAdditionalCases | ataxx/MoveTest.java:35-39 | a2-a2 and d5-f5 are not clones |
| MoveCases.JumpTrueAdditionalCases | ataxx/MoveTest.java:42-46 | a3-c3 and d6-f6 are jumps |
| MoveCases.JumpFalseAdditionalCases | ataxx/MoveTest.java:49-53 | a3-b4 and d6-e7 are not jumps |
| MoveCases.TestedShapesExclusive | ataxx/MoveTest.java:18-25 | c1-c3 is a jump and not a clone |
| Moves.ShapesExclusive | ataxx/MoveTest.java:10-53 | no move is both a clone and a jump, and a same-cell move is neither |
| Moves.ShapeByAxes | ataxx/MoveTest.java:10-53 | clone iff both axis distances are at most 1 and not both 0; jump iff both are at most 2 and one of them is 2 |
| Gui.JavaDiv | ataxx/GUI.java:115-116 | the quotient truncates toward zero: for a >= 0, 0 <= q*d <= a < q*d + d; for a < 0, q*d - d < a <= q*d <= 0 |
| Gui.ClickInsideGrid | ataxx/GUI.java:107-116 | a click at 0 <= x, y < 350 selects a row and a column in 0..6 |
| Gui.CellName | ataxx/GUI.java:262-268 | for row and col in 0..6, the name is the two characters 'a'+col then '7'-row; off the grid there is no name, because charAt throws |
| Gui.CellOfName | ataxx/GUI.java:219-220 | a name is read back exactly when it is a well-formed cell |
| Gui.CellNameRoundTrip | ataxx/GUI.java:262-268 | reading back the name of a grid cell, with col = c-'a' and row = '7'-r, gives the cell |
| Gui.CellNameOnto | ataxx/GUI.java:262-268 | every well-formed cell name is the name of the cell it reads back to |
| Gui.CellNameInjective | ataxx/GUI.java:262-268 | distinct grid cells have distinct names |
| Gui.PaintedSquareClicksBack | ataxx/GUI.java:219-231 | a click anywhere in the square painted for cell (c, r) selects the grid cell named c then r |
| Gui.GetCommand | ataxx/GUI.java:273-304 | Waiting happens only when the queue was empty (nothing changes) or held a single click with nothing selected (that click becomes the selection); a command clears the selection; block placement is re-enabled exactly by "new"; the PLAYER point is untouched; every result other than Waiting consumes at least one token |
| Gui.GetCommandOutputs | ataxx/GUI.java:280-299 | the token completing a command is the first queued one, or the second when nothing is selected and the first is a click; RESTART gives "new", PLAYER gives the PLAYER text, and a click gives a five-character move that reads back as the selected cell (or the first queued click) and then that click |
| Gui.MoveCommandParses | ataxx/GUI.java:295 | the move text for two grid cells is five characters with '-' at index 2 and reads back as those two cells |
| Gui.FirstClickSelects | ataxx/GUI.java:291-293 | the first board click records the clicked cell, returns nothing, and leaves the board alone |
| Gui.SecondClickCommand | ataxx/GUI.java:294-298 | the second click returns src-dst, which reads back as the selected cell then the clicked cell, and clears the selection |
| Gui.NewResets | ataxx/GUI.java:280-284 | "New" returns "new", clears the selection and re-enables block placement |
| Gui.ComboCommand | ataxx/GUI.java:286-288 | a combo selection returns "ai " for AI or "manual " otherwise, then "red" for the red box or "blue" for the blue one, and clears the selection |
| Gui.ComboCommandCases | ataxx/GUI.java:79-92 | the four selections give "ai red", "manual red", "ai blue" and "manual blue" |
| Gui.PlayerPointShared | ataxx/GUI.java:88-92 | two selections queued before the loop takes the first both return the text of the second |
| Gui.PlacementOnEmpty | ataxx/GUI.java:118-125 | in placement mode, a click on an Empty cell blocks that cell, stays in placement mode and returns nothing |
| Gui.InitialClickPlacesBlock | ataxx/GUI.java:38-44 | the GUI starts in placement mode with nothing selected and nothing queued; from there a click on an Empty cell blocks it and leaves the initial state on the new board |
| Gui.PlacementOnBlocked | ataxx/GUI.java:126-128 | in placement mode, a click on a Blocked cell changes nothing |
| Gui.PlacementOnPiece | ataxx/GUI.java:129-134 | in placement mode, a click on a piece ends placement mode; the click is then handled like any board click |
| Gui.MultiClickIgnored | ataxx/GUI.java:113 | a click whose click count is not 1 changes nothing |

## Left out

- Swing plumbing is not modelled: frame and panel setup, painting, `paintStar` (floating point), `update`, and the score label. Only the pixel arithmetic of the painting offsets is kept.
- The reporters `announceWinner`, `announceMove`, `message` and `error` only print. They are not modelled.
- Threads are not modelled. The blocking `take` on the task queue is represented by the `Waiting` outcome.
- `Gui.Step` assumes each event arrives while the command loop waits on an empty queue. Events queued ahead of the loop are covered by `Listen` and `GetCommand` separately.
- The GUI's board is taken to be set. A click before the first `update` would dereference null; that case is not modelled.
- The GUI shares the game's `Board` object by reference: `update` keeps only the first board it is given, and `setBlock` changes the game's board in place. The model keeps that board inside `Gui.GuiState` and does not model the sharing.
- An exception from `Board.getContent(int)` at an index outside the store is not modelled: the content map is total. From rows 1 and 7 of an unpadded store, the stride-7 offsets reach such indices.
- An exception inside the mouse listener, from a click off the grid during placement, is modelled as the event having no effect.
- Randomness is not modelled as a generator. `Collections.shuffle` is an arbitrary permutation and `Math.random` an arbitrary index. The constructor ignores its seed.
- The `Move.pass()` fallback of `findMove` cannot be reached, because `get` on an empty list throws first. `Selection.FindMove` requires a candidate instead.
- `getAtaxxMove`, `isAuto` and the call to `reportMove` hand the move to the game. They are not modelled.
- The internals of `Board`, `Move`, `Game` and `Player` are not part of this model. `index`, `moveLegal`, `createMove`, `getContent(char, char)` and `setBlock` are uninterpreted parameters; no capture or legality rule is assumed.
- What `Move.move` returns for a destination off the grid (columns '_' to 'i', rows '/' to '9') is not part of this model. Such a move is a plain value, and `moveLegal` decides whether it is kept.
- `fromIndex` in `evaluateMove` is computed but never used, so it has no counterpart.
- Selection.FindMove: no contract says the game board is left unchanged. Boards are immutable values here, so scoring on a copy cannot change the original by construction.
- The scenarios of `ataxx/WinnerTest.java` depend only on `createMove` and `getWinner`, which are not part of this model. They are not modelled.

=== FILE: boards.dfy ===
/** The game board seen only through its interface: the flat content store, the side to
    move and the board operations whose definitions are not part of this model. */
module Boards {
  import opened Pieces
  import opened Moves

  /** A board value: the content of every flat index and the colour whose turn it is.
      Boards are immutable values, so a "copy" is the value itself. */
  datatype Board = Board(content: int -> PieceState, next: Side)

  /** The board operations the AI and the GUI call, left uninterpreted:
      index(col, row) is `Board.index`, moveLegal is `Board.moveLegal`, createMove
      returns the board after `Board.createMove`, getContent and setBlock are the
      cell-addressed `Board.getContent(char, char)` and `Board.setBlock(char, char)`. */
  datatype Rules = Rules(
    index: (char, char) -> int,
    moveLegal: (Board, Move) -> bool,
    createMove: (Board, Move) -> Board,
    getContent: (Board, char, char) -> PieceState,
    setBlock: (Board, char, char) -> Board)

  /** A playable cell: columns 'a'..'g', rows '1'..'7'. */
  predicate OnBoard(col: char, row: char)
  {
    'a' <= col <= 'g' && '1' <= row <= '7'
  }
}

=== FILE: gui.dfy ===
/** The GUI's command logic: mapping mouse pixels to grid cells and cells to move notation,
    the mouse listener (block placement and board clicks), the two combo boxes and the "New"
    button, and the loop that turns queued events into text commands (`getCommand(String)`).
    The event queue is explicit: listeners append tokens, and GetCommand drains them. */
module Gui {
  import opened Wrappers
  import opened Pieces
  import opened Moves
  import opened Boards

  /** Side of one square in pixels. */
  const ChessWidth := 50
  /** Inset of a painted piece inside its square. */
  const ChessPadding := 5
  /** Squares per side of the grid. */
  const BoardWidth := 7

  /** `java.awt.Point`: for a click x is the grid row and y the grid column; for the shared
      PLAYER point x is the player kind (1 manual, 0 AI) and y the colour (1 red, 0 blue). */
  datatype Point = Point(x: int, y: int)

  /** Java's int division, which truncates toward zero (Dafny's `/` is Euclidean). */
  function JavaDiv(a: int, d: int): (q: int)
    requires d > 0
    ensures a >= 0 ==> 0 <= q * d <= a < q * d + d
    ensures a < 0 ==> q * d - d < a <= q * d <= 0
  {
    if a >= 0 then
      EuclideanBounds(a, d);
      a / d
    else
      EuclideanBounds(-a, d);
      -((-a) / d)
  }

  /** For n >= 0, n / d is the largest multiple count of d not above n. */
  lemma EuclideanBounds(n: int, d: int)
    requires n >= 0 && d > 0
    ensures 0 <= (n / d) * d <= n < (n / d) * d + d
  {
    assert n == d * (n / d) + n % d;
  }

  /** The grid cell under a mouse position: `row = y / 50`, `col = x / 50`. */
  function ClickedCell(x: int, y: int): Point
  {
    Point(JavaDiv(y, ChessWidth), JavaDiv(x, ChessWidth))
  }

  /** Any position inside the 350 x 350 drawing panel falls on a cell of the 7 x 7 grid. */
  lemma ClickInsideGrid(x: int, y: int)
    requires 0 <= x < BoardWidth * ChessWidth && 0 <= y < BoardWidth * ChessWidth
    ensures 0 <= ClickedCell(x, y).x < BoardWidth && 0 <= ClickedCell(x, y).y < BoardWidth
  {
  }

  /** `getCommand(row, col)`: the column letter then the row digit, grid row 0 being rank 7;
      None where `charAt` would throw (a row or column outside 0..6). */
  function CellName(row: int, col: int): (r: Option<string>)
    ensures r.Some? <==> 0 <= row < BoardWidth && 0 <= col < BoardWidth
    ensures r.Some? ==>
      |r.value| == 2 && r.value[0] as int == 'a' as int + col && r.value[1] as int == '7' as int - row
  {
    if 0 <= row < BoardWidth && 0 <= col < BoardWidth
    then Some(["abcdefg"[col], "7654321"[row]])
    else None
  }

  /** The grid cell a cell name denotes: `col = c - 'a'` and `row = '7' - r`, the offsets the
      painting code uses. */
  function CellOfName(s: string): (p: Option<Point>)
    ensures p.Some? <==> ValidCell(s)
  {
    if ValidCell(s) then Some(Point('7' as int - s[1] as int, s[0] as int - 'a' as int)) else None
  }

  /** Naming a grid cell and reading the name back gives the cell. */
  lemma CellNameRoundTrip(row: int, col: int)
    requires 0 <= row < BoardWidth && 0 <= col < BoardWidth
    ensures ValidCell(CellName(row, col).value)
    ensures CellOfName(CellName(row, col).value) == Some(Point(row, col))
  {
  }

  /** Every well-formed cell name is the name of the grid cell it denotes. */
  lemma CellNameOnto(s: string)
    requires ValidCell(s)
    ensures CellName(CellOfName(s).value.x, CellOfName(s).value.y) == Some(s)
  {
    var p := CellOfName(s).value;
    var t := CellName(p.x, p.y).value;
    assert t[0] as int == s[0] as int && t[1] as int == s[1] as int;
    assert t[0] == s[0] && t[1] == s[1];
    assert t == s;
  }

  /** Distinct grid cells have distinct names. */
  lemma CellNameInjective(r1: int, c1: int, r2: int, c2: int)
    requires 0 <= r1 < BoardWidth && 0 <= c1 < BoardWidth
    requires 0 <= r2 < BoardWidth && 0 <= c2 < BoardWidth
    requires CellName(r1, c1) == CellName(r2, c2)
    ensures r1 == r2 && c1 == c2
  {
    CellNameRoundTrip(r1, c1);
    CellNameRoundTrip(r2, c2);
  }

  /** Top-left pixel of the piece painted for cell (c, r). */
  function PaintOrigin(c: char, r: char): Point
  {
    Point((c as int - 'a' as int) * ChessWidth + ChessPadding, ('7' as int - r as int) * ChessWidth + ChessPadding)
  }

  /** A click anywhere in the square where cell (c, r) is painted, including on its piece,
      selects a grid cell whose name is c then r: painting and clicking agree. */
  lemma PaintedSquareClicksBack(c: char, r: char, dx: int, dy: int)
    requires OnBoard(c, r) && 0 <= dx < ChessWidth && 0 <= dy < ChessWidth
    ensures var p := ClickedCell((c as int - 'a' as int) * ChessWidth + dx, ('7' as int - r as int) * ChessWidth + dy);
      CellName(p.x, p.y) == Some([c, r])
    ensures var p := ClickedCell(PaintOrigin(c, r).x, PaintOrigin(c, r).y);
      CellName(p.x, p.y) == Some([c, r])
  {
    var x := (c as int - 'a' as int) * ChessWidth + dx;
    var y := ('7' as int - r as int) * ChessWidth + dy;
    assert JavaDiv(x, ChessWidth) == c as int - 'a' as int;
    assert JavaDiv(y, ChessWidth) == '7' as int - r as int;
    var n := CellName(JavaDiv(y, ChessWidth), JavaDiv(x, ChessWidth)).value;
    assert n == [c, r];
    var x0 := PaintOrigin(c, r).x;
    var y0 := PaintOrigin(c, r).y;
    assert JavaDiv(x0, ChessWidth) == c as int - 'a' as int;
    assert JavaDiv(y0, ChessWidth) == '7' as int - r as int;
  }

  /** What the command loop finds in its queue: the RESTART and PLAYER markers, or a
      clicked cell. */
  datatype Token = RestartToken | PlayerToken | ClickToken(at: Point)

  /** The GUI's mutable state: the shared board, the block-placement flag, the selected
      cell (`chess`), the shared PLAYER point and the task queue. */
  datatype GuiState = GuiState(
    board: Board,
    placeBlock: bool,
    chess: Option<Point>,
    playerSetting: Point,
    queue: seq<Token>)

  function Initial(board: Board): GuiState
  {
    GuiState(board, true, None, Point(0, 0), [])
  }

  datatype Combo = RedCombo | BlueCombo

  /** Swing events the listeners react to: the "New" button, a selection in one of the two
      player combo boxes, and a mouse click on the drawing panel. */
  datatype UiEvent = NewPressed | ComboSelected(source: Combo, item: string) | MouseClicked(x: int, y: int, clickCount: int)

  /** The listeners: each appends to the queue, except block placement, which changes the
      board directly. */
  function Listen(rules: Rules, st: GuiState, ev: UiEvent): GuiState
  {
    match ev
    case NewPressed => st.(queue := st.queue + [RestartToken])
    case ComboSelected(source, item) =>
      var player := if item == "AI" then 0 else 1;
      var color := if source == RedCombo then 1 else 0;
      st.(playerSetting := Point(player, color), queue := st.queue + [PlayerToken])
    case MouseClicked(x, y, clicks) =>
      if clicks != 1 then st
      else
        var cell := ClickedCell(x, y);
        if st.placeBlock then
          match CellName(cell.x, cell.y)
          case None => st
          case Some(cmd) =>
            var state := rules.getContent(st.board, cmd[0], cmd[1]);
            if state == Empty then st.(board := rules.setBlock(st.board, cmd[0], cmd[1]))
            else if state == Blocked then st
            else st.(placeBlock := false, queue := st.queue + [ClickToken(cell)])
        else st.(queue := st.queue + [ClickToken(cell)])
  }

  /** What one call of `getCommand(String)` ends in: a command, blocked on an empty queue,
      or the RuntimeException raised when a selected cell lies off the grid. */
  datatype Outcome = Waiting | Command(text: string) | Failed

  /** The GUI state after a call of the command loop, with how that call ended. */
  datatype Reply = Reply(state: GuiState, outcome: Outcome)

  /** The command the PLAYER marker stands for, read from the shared point. */
  function PlayerText(setting: Point): string
  {
    (if setting.x == 1 then "manual " else "ai ") + (if setting.y == 1 then "red" else "blue")
  }

  /** `getCommand(String)`: take tokens until one of them completes a command. */
  function GetCommand(st: GuiState): (res: Reply)
    ensures res.outcome.Waiting? ==> res.state.queue == []
    ensures res.outcome.Waiting? && st.queue == [] ==> res.state == st
    ensures res.outcome.Waiting? && st.queue != [] ==>
      && st.chess.None? && |st.queue| == 1 && st.queue[0].ClickToken?
      && res.state == st.(queue := [], chess := Some(st.queue[0].at))
    ensures res.outcome.Command? ==> res.state.chess.None?
    ensures res.state.placeBlock == (st.placeBlock || res.outcome == Command("new"))
    ensures res.state.playerSetting == st.playerSetting
    ensures res.outcome.Waiting? || |res.state.queue| < |st.queue|
    ensures res.outcome.Command? && |res.outcome.text| == 5 ==> res.outcome.text[2] == '-'
    decreases |st.queue|
  {
    if |st.queue| == 0 then Reply(st, Waiting)
    else
      var rest := st.(queue := st.queue[1..]);
      match st.queue[0]
      case RestartToken => Reply(rest.(chess := None, placeBlock := true), Command("new"))
      case PlayerToken => Reply(rest.(chess := None), Command(PlayerText(st.playerSetting)))
      case ClickToken(p) =>
        if st.chess.None? then GetCommand(rest.(chess := Some(p)))
        else
          match (CellName(st.chess.value.x, st.chess.value.y), CellName(p.x, p.y))
          case (Some(src), Some(dst)) => Reply(rest.(chess := None), Command(src + "-" + dst))
          case _ => Reply(rest, Failed)
  }

  /** One UI event while the command loop waits on an empty queue. */
  function Step(rules: Rules, st: GuiState, ev: UiEvent): Reply
  {
    GetCommand(Listen(rules, st, ev))
  }

  /** A move command "c0r0-c1r1" read back into its two grid cells. */
  function ParseMoveCommand(s: string): Option<(Point, Point)>
  {
    if |s| == 5 && s[2] == '-' && CellOfName(s[..2]).Some? && CellOfName(s[3..]).Some?
    then Some((CellOfName(s[..2]).value, CellOfName(s[3..]).value))
    else None
  }

  /** The text the combo listener's encoding (AI as 0, red as 1) decodes to. */
  function ComboText(source: Combo, item: string): string
  {
    (if item == "AI" then "ai " else "manual ") + (if source == RedCombo then "red" else "blue")
  }

  /** Index of the token that completes the next command: the first one, unless nothing is
      selected and the first one is a click, which then only selects a cell. */
  function CompletingIndex(st: GuiState): nat
  {
    if st.chess.None? && |st.queue| > 0 && st.queue[0].ClickToken? then 1 else 0
  }

  /** What each command the loop returns means: "new" for RESTART, the PLAYER text for
      PLAYER, and for a click the move from the selected cell (or, with nothing selected, the
      first queued click) to that click, which reads back as those two grid cells. */
  lemma GetCommandOutputs(st: GuiState)
    ensures var out := GetCommand(st).outcome;
      var k := CompletingIndex(st);
      out.Command? ==> (k < |st.queue| &&
        match st.queue[k]
        case RestartToken => out.text == "new"
        case PlayerToken => out.text == PlayerText(st.playerSetting)
        case ClickToken(p) =>
          var from := if k == 0 then st.chess.value else st.queue[0].at;
          |out.text| == 5 && ParseMoveCommand(out.text) == Some((from, p)))
  {
    if |st.queue| > 0 {
      var rest := st.(queue := st.queue[1..]);
      match st.queue[0]
      case RestartToken =>
      case PlayerToken =>
      case ClickToken(p) =>
        if st.chess.None? {
          var sel := rest.(chess := Some(p));
          assert GetCommand(st) == GetCommand(sel);
          if |sel.queue| > 0 && sel.queue[0].ClickToken? {
            var q := sel.queue[0].at;
            assert sel.queue[0] == st.queue[1];
            if CellName(p.x, p.y).Some? && CellName(q.x, q.y).Some? {
              MoveCommandParses(p, q);
            }
          }
        } else if CellName(st.chess.value.x, st.chess.value.y).Some? && CellName(p.x, p.y).Some? {
          MoveCommandParses(st.chess.value, p);
        }
    }
  }

  /** The move text built from two grid cells is five characters, '-' in the middle, and
      reads back as the two cells. */
  lemma MoveCommandParses(src: Point, dst: Point)
    requires 0 <= src.x < BoardWidth && 0 <= src.y < BoardWidth
    requires 0 <= dst.x < BoardWidth && 0 <= dst.y < BoardWidth
    ensures var text := CellName(src.x, src.y).value + "-" + CellName(dst.x, dst.y).value;
      |text| == 5 && text[2] == '-' && ParseMoveCommand(text) == Some((src, dst))
  {
    var a := CellName(src.x, src.y).value;
    var b := CellName(dst.x, dst.y).value;
    var text := a + "-" + b;
    assert text[..2] == a;
    assert text[3..] == b;
    CellNameRoundTrip(src.x, src.y);
    CellNameRoundTrip(dst.x, dst.y);
  }

  /** Outside block placement, the first board click only records the selection. */
  lemma FirstClickSelects(rules: Rules, st: GuiState, x: int, y: int)
    requires st.queue == [] && !st.placeBlock && st.chess.None?
    ensures Step(rules, st, MouseClicked(x, y, 1)).outcome == Waiting
    ensures Step(rules, st, MouseClicked(x, y, 1)).state.chess == Some(ClickedCell(x, y))
    ensures Step(rules, st, MouseClicked(x, y, 1)).state.queue == []
    ensures Step(rules, st, MouseClicked(x, y, 1)).state.board == st.board
  {
    var st1 := Listen(rules, st, MouseClicked(x, y, 1));
    assert st1.queue == [ClickToken(ClickedCell(x, y))];
    var st2 := st1.(queue := st1.queue[1..], chess := Some(ClickedCell(x, y)));
    assert GetCommand(st1) == GetCommand(st2);
    assert GetCommand(st2) == Reply(st2, Waiting);
  }

  /** The second click returns "src-dst", naming the selected cell and then the clicked one,
      and clears the selection. */
  lemma SecondClickCommand(rules: Rules, st: GuiState, x: int, y: int)
    requires st.queue == [] && !st.placeBlock && st.chess.Some?
    requires 0 <= st.chess.value.x < BoardWidth && 0 <= st.chess.value.y < BoardWidth
    requires 0 <= x < BoardWidth * ChessWidth && 0 <= y < BoardWidth * ChessWidth
    ensures var Reply(st', out) := Step(rules, st, MouseClicked(x, y, 1));
      && out.Command? && |out.text| == 5 && out.text[2] == '-'
      && ParseMoveCommand(out.text) == Some((st.chess.value, ClickedCell(x, y)))
      && st'.chess.None? && st'.queue == []
  {
    ClickInsideGrid(x, y);
    MoveCommandParses(st.chess.value, ClickedCell(x, y));
  }

  /** "New" clears the selection, re-enables block placement and returns "new". */
  lemma NewResets(rules: Rules, st: GuiState)
    requires st.queue == []
    ensures var Reply(st', out) := Step(rules, st, NewPressed);
      && out == Command("new") && st'.chess.None? && st'.placeBlock && st'.queue == []
      && st'.board == st.board
  {
  }

  /** A combo selection clears the selection and returns "ai " or "manual " then "red" or
      "blue": what the listener encodes, the command loop decodes. */
  lemma ComboCommand(rules: Rules, st: GuiState, source: Combo, item: string)
    requires st.queue == []
    ensures var Reply(st', out) := Step(rules, st, ComboSelected(source, item));
      && out == Command(ComboText(source, item)) && st'.chess.None? && st'.queue == []
      && st'.placeBlock == st.placeBlock
  {
  }

  /** The four player commands the combo boxes can produce. */
  lemma ComboCommandCases(rules: Rules, st: GuiState)
    requires st.queue == []
    ensures Step(rules, st, ComboSelected(RedCombo, "AI")).outcome == Command("ai red")
    ensures Step(rules, st, ComboSelected(RedCombo, "Manual")).outcome == Command("manual red")
    ensures Step(rules, st, ComboSelected(BlueCombo, "AI")).outcome == Command("ai blue")
    ensures Step(rules, st, ComboSelected(BlueCombo, "Manual")).outcome == Command("manual blue")
  {
    ComboCommand(rules, st, RedCombo, "AI");
    ComboCommand(rules, st, RedCombo, "Manual");
    ComboCommand(rules, st, BlueCombo, "AI");
    ComboCommand(rules, st, BlueCombo, "Manual");
  }

  /** Both combo events read the one shared PLAYER point when they are taken: if two
      selections are queued before the loop takes the first, both commands carry the
      second selection. */
  lemma PlayerPointShared(rules: Rules, st: GuiState, s1: Combo, i1: string, s2: Combo, i2: string)
    requires st.queue == []
    ensures var queued := Listen(rules, Listen(rules, st, ComboSelected(s1, i1)), ComboSelected(s2, i2));
      && GetCommand(queued).outcome == Command(ComboText(s2, i2))
      && GetCommand(GetCommand(queued).state).outcome == Command(ComboText(s2, i2))
  {
  }

  /** In placement mode, a click on an Empty cell blocks it and stays in placement mode
      without producing anything. */
  lemma PlacementOnEmpty(rules: Rules, st: GuiState, x: int, y: int)
    requires st.queue == [] && st.placeBlock
    requires 0 <= x < BoardWidth * ChessWidth && 0 <= y < BoardWidth * ChessWidth
    requires var n := CellName(ClickedCell(x, y).x, ClickedCell(x, y).y).value;
      rules.getContent(st.board, n[0], n[1]) == Empty
    ensures var n := CellName(ClickedCell(x, y).x, ClickedCell(x, y).y).value;
      var Reply(st', out) := Step(rules, st, MouseClicked(x, y, 1));
      && out == Waiting && st'.placeBlock && st'.chess == st.chess && st'.queue == []
      && st'.board == rules.setBlock(st.board, n[0], n[1])
  {
    ClickInsideGrid(x, y);
  }

  /** From the initial state (placement mode, nothing selected, nothing queued), a click on
      an Empty cell blocks it and leaves the GUI in its initial state on the new board. */
  lemma InitialClickPlacesBlock(rules: Rules, board: Board, x: int, y: int)
    requires 0 <= x < BoardWidth * ChessWidth && 0 <= y < BoardWidth * ChessWidth
    requires var n := CellName(ClickedCell(x, y).x, ClickedCell(x, y).y).value;
      rules.getContent(board, n[0], n[1]) == Empty
    ensures var n := CellName(ClickedCell(x, y).x, ClickedCell(x, y).y).value;
      Step(rules, Initial(board), MouseClicked(x, y, 1))
        == Reply(Initial(rules.setBlock(board, n[0], n[1])), Waiting)
  {
    PlacementOnEmpty(rules, Initial(board), x, y);
  }

  /** In placement mode, a click on a Blocked cell changes nothing. */
  lemma PlacementOnBlocked(rules: Rules, st: GuiState, x: int, y: int)
    requires st.queue == [] && st.placeBlock
    requires 0 <= x < BoardWidth * ChessWidth && 0 <= y < BoardWidth * ChessWidth
    requires var n := CellName(ClickedCell(x, y).x, ClickedCell(x, y).y).value;
      rules.getContent(st.board, n[0], n[1]) == Blocked
    ensures var Reply(st', out) := Step(rules, st, MouseClicked(x, y, 1));
      && out == Waiting && st'.placeBlock && st'.chess == st.chess && st'.queue == []
      && st'.board == st.board
  {
    ClickInsideGrid(x, y);
  }

  /** In placement mode, a click on a piece ends placement and is then handled as an
      ordinary board click. */
  lemma PlacementOnPiece(rules: Rules, st: GuiState, x: int, y: int)
    requires st.queue == [] && st.placeBlock
    requires 0 <= x < BoardWidth * ChessWidth && 0 <= y < BoardWidth * ChessWidth
    requires var n := CellName(ClickedCell(x, y).x, ClickedCell(x, y).y).value;
      rules.getContent(st.board, n[0], n[1]) != Empty && rules.getContent(st.board, n[0], n[1]) != Blocked
    ensures Step(rules, st, MouseClicked(x, y, 1)) == Step(rules, st.(placeBlock := false), MouseClicked(x, y, 1))
    ensures !Step(rules, st, MouseClicked(x, y, 1)).state.placeBlock
  {
    ClickInsideGrid(x, y);
  }

  /** A double click (click count other than 1) is ignored. */
  lemma MultiClickIgnored(rules: Rules, st: GuiState, x: int, y: int, clicks: int)
    requires st.queue == [] && clicks != 1
    ensures Step(rules, st, MouseClicked(x, y, clicks)).outcome == Waiting
    ensures Step(rules, st, MouseClicked(x, y, clicks)).state == st
  {
  }
}

=== FILE: move_cases.dfy ===
/** The clone/jump cases fixed by the repository's unit tests for `Move`, one lemma per test. */
module MoveCases {
  import opened Moves

  /** One-step diagonal and orthogonal moves are clones. */
  lemma CloneTrueCases()
    ensures IsCloneCells("c1", "d2")
    ensures IsCloneCells("b1", "b2")
  {
  }

  /** A same-cell move and a straight two-step move are not clones. */
  lemma CloneFalseCases()
    ensures !IsCloneCells("c1", "c1")
    ensures !IsCloneCells("c1", "c3")
  {
  }

  /** Two-step moves, knight-shaped or straight, are jumps. */
  lemma JumpTrueCases()
    ensures IsJumpCells("c1", "d3")
    ensures IsJumpCells("c1", "c3")
  {
  }

  /** A one-step diagonal and a three-step move are not jumps. */
  lemma JumpFalseCases()
    ensures !IsJumpCells("c4", "d3")
    ensures !IsJumpCells("b2", "b5")
  {
  }

  /** Another same-cell move and a two-column move are not clones. */
  lemma CloneFalseAdditionalCases()
    ensures !IsCloneCells("a2", "a2")
    ensures !IsCloneCells("d5", "f5")
  {
  }

  /** Straight two-column moves are jumps. */
  lemma JumpTrueAdditionalCases()
    ensures IsJumpCells("a3", "c3")
    ensures IsJumpCells("d6", "f6")
  {
  }

  /** One-step diagonals are not jumps. */
  lemma JumpFalseAdditionalCases()
    ensures !IsJumpCells("a3", "b4")
    ensures !IsJumpCells("d6", "e7")
  {
  }

  /** On a pair from the unit tests the two shapes exclude each other: c1-c3 is a jump and not a clone. */
  lemma TestedShapesExclusive()
    ensures IsJumpCells("c1", "c3") && !IsCloneCells("c1", "c3")
  {
  }
}

=== FILE: move_gen.dfy ===
/** Enumeration of candidate moves (`possibleMoves` and `assistPossibleMoves` of the AI player).
    Each nested Java loop becomes a pair of recursive functions that walk the same ranges in the
    same order; the lemmas state which moves come out and in which order. */
module MoveGen {
  import opened Pieces
  import opened Moves
  import opened Boards

  /** Destination within two columns and two rows of the source, and not the source itself. */
  predicate InReach(m: Move)
  {
    -2 <= ColDelta(m) <= 2 && -2 <= RowDelta(m) <= 2 && (ColDelta(m) != 0 || RowDelta(m) != 0)
  }

  /** Position of a source cell in the scan: row '7' first, and 'a' to 'g' within a row. */
  function SourceRank(col: char, row: char): int
  {
    ('7' as int - row as int) * 7 + (col as int - 'a' as int)
  }

  /** Position of a move in the enumeration order: source rank, then column offset,
      then row offset. */
  function Key(m: Move): int
  {
    SourceRank(m.col0, m.row0) * 25 + (ColDelta(m) + 2) * 5 + (RowDelta(m) + 2)
  }

  /** Strictly increasing in enumeration order (hence also free of repetitions). */
  predicate Increasing(ms: seq<Move>)
  {
    forall p, q :: 0 <= p < q < |ms| ==> Key(ms[p]) < Key(ms[q])
  }

  predicate KeysIn(ms: seq<Move>, lo: int, hi: int)
  {
    forall m :: m in ms ==> lo <= Key(m) < hi
  }

  /** The candidate `Move.move(col, row, col + i, row + j)`. */
  function Shift(col: char, row: char, i: int, j: int): (m: Move)
    requires OnBoard(col, row) && -2 <= i <= 2 && -2 <= j <= 2
    ensures m.col0 == col && m.row0 == row && ColDelta(m) == i && RowDelta(m) == j
  {
    Move(col, row, (col as int + i) as char, (row as int + j) as char)
  }

  /** Inner loop of `assistPossibleMoves`: row offsets j..2 for a fixed column offset i. */
  function AssistInner(rules: Rules, b: Board, row: char, col: char, i: int, j: int): seq<Move>
    requires OnBoard(col, row) && -2 <= i <= 2 && -2 <= j <= 3
    decreases 3 - j
  {
    if j > 2 then []
    else
      var here := if (i != 0 || j != 0) && rules.moveLegal(b, Shift(col, row, i, j))
        then [Shift(col, row, i, j)] else [];
      here + AssistInner(rules, b, row, col, i, j + 1)
  }

  /** Outer loop of `assistPossibleMoves`: column offsets i..2. */
  function AssistOuter(rules: Rules, b: Board, row: char, col: char, i: int): seq<Move>
    requires OnBoard(col, row) && -2 <= i <= 3
    decreases 3 - i
  {
    if i > 2 then []
    else AssistInner(rules, b, row, col, i, -2) + AssistOuter(rules, b, row, col, i + 1)
  }

  /** The legal moves from one source cell, in loop order. */
  function AssistPossibleMoves(rules: Rules, b: Board, row: char, col: char): seq<Move>
    requires OnBoard(col, row)
  {
    AssistOuter(rules, b, row, col, -2)
  }

  /** Inner loop of `possibleMoves`: columns col..'g' of one row. */
  function ScanCols(rules: Rules, b: Board, c: Side, row: char, col: char): seq<Move>
    requires '1' <= row <= '7' && 'a' <= col <= 'h'
    decreases 'h' as int - col as int
  {
    if col > 'g' then []
    else
      var here := if b.content(rules.index(col, row)) == c
        then AssistPossibleMoves(rules, b, row, col) else [];
      here + ScanCols(rules, b, c, row, (col as int + 1) as char)
  }

  /** Outer loop of `possibleMoves`: rows from row down to '1'. */
  function ScanRows(rules: Rules, b: Board, c: Side, row: char): seq<Move>
    requires '0' <= row <= '7'
    decreases row as int
  {
    if row < '1' then []
    else ScanCols(rules, b, c, row, 'a') + ScanRows(rules, b, c, (row as int - 1) as char)
  }

  /** All legal moves for colour c: `possibleMoves(board, c)`. */
  function PossibleMoves(rules: Rules, b: Board, c: Side): seq<Move>
  {
    ScanRows(rules, b, c, '7')
  }

  /** What qualifies a move for the list of colour c: an on-board source holding c, a
      destination in reach, and the board's own legality test. */
  predicate Candidate(rules: Rules, b: Board, c: Side, m: Move)
  {
    OnBoard(m.col0, m.row0) && b.content(rules.index(m.col0, m.row0)) == c
    && InReach(m) && rules.moveLegal(b, m)
  }

  lemma ConcatOrdered(a: seq<Move>, b: seq<Move>, lo: int, mid: int, hi: int)
    requires lo <= mid <= hi
    requires Increasing(a) && KeysIn(a, lo, mid)
    requires Increasing(b) && KeysIn(b, mid, hi)
    ensures Increasing(a + b) && KeysIn(a + b, lo, hi)
  {
    forall p, q | 0 <= p < q < |a + b|
      ensures Key((a + b)[p]) < Key((a + b)[q])
    {
      if q < |a| {
        assert (a + b)[p] == a[p] && (a + b)[q] == a[q];
      } else if p < |a| {
        assert (a + b)[p] == a[p] && a[p] in a;
        assert (a + b)[q] == b[q - |a|] && b[q - |a|] in b;
      } else {
        assert (a + b)[p] == b[p - |a|] && (a + b)[q] == b[q - |a|];
      }
    }
  }

  /** What the inner loop for column offset i, from row offset j on, keeps. */
  predicate InnerMember(rules: Rules, b: Board, row: char, col: char, i: int, j: int, m: Move)
  {
    m.col0 == col && m.row0 == row && ColDelta(m) == i && j <= RowDelta(m) <= 2
    && (i != 0 || RowDelta(m) != 0) && rules.moveLegal(b, m)
  }

  /** What the outer loop, from column offset i on, keeps. */
  predicate OuterMember(rules: Rules, b: Board, row: char, col: char, i: int, m: Move)
  {
    m.col0 == col && m.row0 == row && i <= ColDelta(m) <= 2 && InReach(m) && rules.moveLegal(b, m)
  }

  lemma {:induction false} AssistInnerMembers(rules: Rules, b: Board, row: char, col: char, i: int, j: int)
    requires OnBoard(col, row) && -2 <= i <= 2 && -2 <= j <= 3
    ensures forall m :: m in AssistInner(rules, b, row, col, i, j) <==> InnerMember(rules, b, row, col, i, j, m)
    decreases 3 - j
  {
    if j <= 2 {
      AssistInnerMembers(rules, b, row, col, i, j + 1);
      var m0 := Shift(col, row, i, j);
      var here := if (i != 0 || j != 0) && rules.moveLegal(b, m0) then [m0] else [];
      var rest := AssistInner(rules, b, row, col, i, j + 1);
      assert AssistInner(rules, b, row, col, i, j) == here + rest;
      forall m: Move
        ensures m in here + rest <==> InnerMember(rules, b, row, col, i, j, m)
      {
        assert m in here + rest <==> m in here || m in rest;
        if RowDelta(m) == j && m.col0 == col && m.row0 == row && ColDelta(m) == i {
          assert m == m0;
        }
      }
    }
  }

  lemma {:induction false} AssistInnerOrdered(rules: Rules, b: Board, row: char, col: char, i: int, j: int)
    requires OnBoard(col, row) && -2 <= i <= 2 && -2 <= j <= 3
    ensures Increasing(AssistInner(rules, b, row, col, i, j))
    ensures KeysIn(AssistInner(rules, b, row, col, i, j),
      SourceRank(col, row) * 25 + (i + 2) * 5 + (j + 2), SourceRank(col, row) * 25 + (i + 2) * 5 + 5)
    ensures |AssistInner(rules, b, row, col, i, j)| <= 3 - j - (if i == 0 && j <= 0 then 1 else 0)
    decreases 3 - j
  {
    if j <= 2 {
      AssistInnerOrdered(rules, b, row, col, i, j + 1);
      var m0 := Shift(col, row, i, j);
      var here := if (i != 0 || j != 0) && rules.moveLegal(b, m0) then [m0] else [];
      var rest := AssistInner(rules, b, row, col, i, j + 1);
      assert AssistInner(rules, b, row, col, i, j) == here + rest;
      var base := SourceRank(col, row) * 25 + (i + 2) * 5;
      ConcatOrdered(here, rest, base + j + 2, base + j + 3, base + 5);
    }
  }

  lemma {:induction false} AssistOuterMembers(rules: Rules, b: Board, row: char, col: char, i: int)
    requires OnBoard(col, row) && -2 <= i <= 3
    ensures forall m :: m in AssistOuter(rules, b, row, col, i) <==> OuterMember(rules, b, row, col, i, m)
    decreases 3 - i
  {
    if i <= 2 {
      var inner := AssistInner(rules, b, row, col, i, -2);
      var outer := AssistOuter(rules, b, row, col, i + 1);
      assert AssistOuter(rules, b, row, col, i) == inner + outer;
      AssistInnerMembers(rules, b, row, col, i, -2);
      AssistOuterMembers(rules, b, row, col, i + 1);
      forall m: Move
        ensures m in inner + outer <==> OuterMember(rules, b, row, col, i, m)
      {
        assert m in inner + outer <==> m in inner || m in outer;
        assert m in inner <==> InnerMember(rules, b, row, col, i, -2, m);
        assert m in outer <==> OuterMember(rules, b, row, col, i + 1, m);
      }
    }
  }

  lemma {:induction false} AssistOuterOrdered(rules: Rules, b: Board, row: char, col: char, i: int)
    requires OnBoard(col, row) && -2 <= i <= 3
    ensures Increasing(AssistOuter(rules, b, row, col, i))
    ensures KeysIn(AssistOuter(rules, b, row, col, i),
      SourceRank(col, row) * 25 + (i + 2) * 5, SourceRank(col, row) * 25 + 25)
    ensures |AssistOuter(rules, b, row, col, i)| <= 5 * (3 - i) - (if i <= 0 then 1 else 0)
    decreases 3 - i
  {
    if i <= 2 {
      var inner := AssistInner(rules, b, row, col, i, -2);
      var outer := AssistOuter(rules, b, row, col, i + 1);
      assert AssistOuter(rules, b, row, col, i) == inner + outer;
      AssistInnerOrdered(rules, b, row, col, i, -2);
      AssistOuterOrdered(rules, b, row, col, i + 1);
      var base := SourceRank(col, row) * 25;
      ConcatOrdered(inner, outer, base + (i + 2) * 5, base + (i + 3) * 5, base + 25);
    }
  }

  /** `assistPossibleMoves`: exactly the legal moves from (col, row) whose column and row
      offsets lie in -2..2 and are not both zero; listed column offset first, row offset
      second; hence at most 24 of them. */
  lemma AssistPossibleMovesSpec(rules: Rules, b: Board, row: char, col: char)
    requires OnBoard(col, row)
    ensures forall m :: m in AssistPossibleMoves(rules, b, row, col) <==>
      m.col0 == col && m.row0 == row && InReach(m) && rules.moveLegal(b, m)
    ensures Increasing(AssistPossibleMoves(rules, b, row, col))
    ensures KeysIn(AssistPossibleMoves(rules, b, row, col),
      SourceRank(col, row) * 25, SourceRank(col, row) * 25 + 25)
    ensures |AssistPossibleMoves(rules, b, row, col)| <= 24
  {
    AssistOuterMembers(rules, b, row, col, -2);
    AssistOuterOrdered(rules, b, row, col, -2);
  }

  lemma {:induction false} ScanColsSpec(rules: Rules, b: Board, c: Side, row: char, col: char)
    requires '1' <= row <= '7' && 'a' <= col <= 'h'
    ensures forall m :: m in ScanCols(rules, b, c, row, col) <==>
      Candidate(rules, b, c, m) && m.row0 == row && col <= m.col0
    ensures Increasing(ScanCols(rules, b, c, row, col))
    ensures KeysIn(ScanCols(rules, b, c, row, col), SourceRank(col, row) * 25, SourceRank('h', row) * 25)
    ensures |ScanCols(rules, b, c, row, col)| <= 24 * ('h' as int - col as int)
    decreases 'h' as int - col as int
  {
    if col <= 'g' {
      var next := (col as int + 1) as char;
      ScanColsSpec(rules, b, c, row, next);
      AssistPossibleMovesSpec(rules, b, row, col);
      var here := if b.content(rules.index(col, row)) == c
        then AssistPossibleMoves(rules, b, row, col) else [];
      ConcatOrdered(here, ScanCols(rules, b, c, row, next),
        SourceRank(col, row) * 25, SourceRank(next, row) * 25, SourceRank('h', row) * 25);
    }
  }

  lemma {:induction false} ScanRowsSpec(rules: Rules, b: Board, c: Side, row: char)
    requires '0' <= row <= '7'
    ensures forall m :: m in ScanRows(rules, b, c, row) <==>
      Candidate(rules, b, c, m) && m.row0 <= row
    ensures Increasing(ScanRows(rules, b, c, row))
    ensures KeysIn(ScanRows(rules, b, c, row), SourceRank('a', row) * 25, 49 * 25)
    ensures |ScanRows(rules, b, c, row)| <= 168 * (row as int - '0' as int)
    decreases row as int
  {
    if row >= '1' {
      var below := (row as int - 1) as char;
      ScanColsSpec(rules, b, c, row, 'a');
      ScanRowsSpec(rules, b, c, below);
      ConcatOrdered(ScanCols(rules, b, c, row, 'a'), ScanRows(rules, b, c, below),
        SourceRank('a', row) * 25, SourceRank('a', below) * 25, 49 * 25);
    }
  }

  /** `possibleMoves(board, c)`: a move is listed iff its source is an on-board cell holding c,
      its destination is within reach and the board calls it legal; the list follows the scan
      (rows '7' down to '1', columns 'a' to 'g', then column offset, then row offset), so no
      move appears twice; there are at most 24 per cell, 1176 in all. */
  lemma PossibleMovesSpec(rules: Rules, b: Board, c: Side)
    ensures forall m :: m in PossibleMoves(rules, b, c) <==> Candidate(rules, b, c, m)
    ensures Increasing(PossibleMoves(rules, b, c))
    ensures |PossibleMoves(rules, b, c)| <= 1176
  {
    ScanRowsSpec(rules, b, c, '7');
  }

  /** Every listed move is a clone or a jump: the offsets in reach are exactly the shapes
      of Chebyshev distance 1 or 2. */
  lemma PossibleMovesAreClonesOrJumps(rules: Rules, b: Board, c: Side, m: Move)
    requires m in PossibleMoves(rules, b, c)
    ensures IsClone(m) || IsJump(m)
  {
    PossibleMovesSpec(rules, b, c);
    ShapeByAxes(m);
  }
}

=== FILE: moves.dfy ===
/** Moves as pairs of cells and their shape classification (clone or jump). */
module Moves {

  /** A move from column/row (col0, row0) to (col1, row1), columns 'a'..'g', rows '1'..'7'. */
  datatype Move = Move(col0: char, row0: char, col1: char, row1: char)

  function Abs(x: int): nat
  {
    if x < 0 then -x else x
  }

  function ColDelta(m: Move): int
  {
    m.col1 as int - m.col0 as int
  }

  function RowDelta(m: Move): int
  {
    m.row1 as int - m.row0 as int
  }

  /** Chebyshev (king-move) distance between the two cells of a move. */
  function Chebyshev(m: Move): (d: nat)
    ensures d == 0 <==> m.col0 == m.col1 && m.row0 == m.row1
    ensures Abs(ColDelta(m)) <= d && Abs(RowDelta(m)) <= d
    ensures d == Abs(ColDelta(m)) || d == Abs(RowDelta(m))
  {
    if Abs(ColDelta(m)) >= Abs(RowDelta(m)) then Abs(ColDelta(m)) else Abs(RowDelta(m))
  }

  /** Manhattan distance, the measure the AI's distance penalty uses. */
  function Manhattan(m: Move): nat
  {
    Abs(ColDelta(m)) + Abs(RowDelta(m))
  }

  /** A clone adds a piece on one of the 8 cells around the source. */
  predicate IsClone(m: Move)
  {
    Chebyshev(m) == 1
  }

  /** A jump relocates a piece to one of the 16 cells at distance exactly 2. */
  predicate IsJump(m: Move)
  {
    Chebyshev(m) == 2
  }

  /** A cell written as in the game's notation: a column letter then a row digit. */
  predicate ValidCell(s: string)
  {
    |s| == 2 && 'a' <= s[0] <= 'g' && '1' <= s[1] <= '7'
  }

  function MoveOfCells(from: string, to: string): (m: Move)
    requires ValidCell(from) && ValidCell(to)
    ensures m.col0 == from[0] && m.row0 == from[1] && m.col1 == to[0] && m.row1 == to[1]
  {
    Move(from[0], from[1], to[0], to[1])
  }

  /** `Move.isClone(String, String)`. */
  predicate IsCloneCells(from: string, to: string)
    requires ValidCell(from) && ValidCell(to)
  {
    IsClone(MoveOfCells(from, to))
  }

  /** `Move.isJump(String, String)`. */
  predicate IsJumpCells(from: string, to: string)
    requires ValidCell(from) && ValidCell(to)
  {
    IsJump(MoveOfCells(from, to))
  }

  /** A move is never both a clone and a jump, and a same-cell move is neither. */
  lemma ShapesExclusive(m: Move)
    ensures !(IsClone(m) && IsJump(m))
    ensures m.col0 == m.col1 && m.row0 == m.row1 ==> !IsClone(m) && !IsJump(m)
  {
  }

  /** Clone/jump in terms of the two axis distances: the largest of them is 1 or 2. */
  lemma ShapeByAxes(m: Move)
    ensures IsClone(m) <==> Abs(ColDelta(m)) <= 1 && Abs(RowDelta(m)) <= 1 && (ColDelta(m) != 0 || RowDelta(m) != 0)
    ensures IsJump(m) <==> Abs(ColDelta(m)) <= 2 && Abs(RowDelta(m)) <= 2 && (Abs(ColDelta(m)) == 2 || Abs(RowDelta(m)) == 2)
  {
  }
}

=== FILE: pieces.dfy ===
/** The four-valued cell content of an Ataxx board and the colour swap on the two sides. */
module Pieces {

  datatype PieceState = Empty | Blocked | Red | Blue

  /** The two playing colours; only these have an opposite. */
  type Side = p: PieceState | p == Red || p == Blue witness Red

  /** `PieceState.opposite()` restricted to the playing colours. */
  function Opposite(c: Side): (o: Side)
    ensures o != c
  {
    if c == Red then Blue else Red
  }

  lemma OppositeInvolution(c: Side)
    ensures Opposite(Opposite(c)) == c
  {
  }
}

=== FILE: scoring.dfy ===
/** The AI's evaluation of a candidate move (`evaluateMove`, `controlScore`,
    `potentialMovesScore`): four integer terms computed on the board after the move. */
module Scoring {
  import opened Pieces
  import opened Moves
  import opened Boards
  import opened MoveGen

  const CaptureWeight := 10
  const DistancePenaltyWeight := 2
  const ControlWeight := 5
  const PotentialMovesWeight := 3

  /** Row stride the capture count adds to a flat index, as the source writes it. */
  const NeighbourStride := 7

  /** The flat-index offsets `NeighbourStride * dr + dc` of the eight (dr, dc) around the
      destination. */
  const NeighbourOffsets: set<int> := {-8, -7, -6, -1, 1, 6, 7, 8}

  /** The flat-index offset of the step (dr, dc), computed as the capture loop computes it. */
  function StrideOffset(dr: int, dc: int): int
  {
    NeighbourStride * dr + dc
  }

  /** NeighbourOffsets is exactly the set of stride offsets of the eight steps (dr, dc) in
      -1..1 other than (0, 0). */
  lemma NeighbourOffsetsFromStride(d: int)
    ensures d in NeighbourOffsets <==>
      exists dr, dc :: -1 <= dr <= 1 && -1 <= dc <= 1 && (dr != 0 || dc != 0) && d == StrideOffset(dr, dc)
  {
    if d in NeighbourOffsets {
      var dr := if d <= -6 then -1 else if d >= 6 then 1 else 0;
      var dc := d - NeighbourStride * dr;
      assert -1 <= dc <= 1 && (dr != 0 || dc != 0) && d == StrideOffset(dr, dc);
    } else {
      forall dr, dc | -1 <= dr <= 1 && -1 <= dc <= 1 && (dr != 0 || dc != 0)
        ensures d != StrideOffset(dr, dc)
      {
        assert dr == -1 || dr == 0 || dr == 1;
      }
    }
  }

  // ---------------------------------------------------------------- capture term

  /** Inner capture loop: column steps dc..1 for a fixed row step dr. */
  function CaptureInner(temp: Board, to: int, opp: Side, dr: int, dc: int): nat
    requires -1 <= dr <= 1 && -1 <= dc <= 2
    decreases 2 - dc
  {
    if dc > 1 then 0
    else
      (if (dr != 0 || dc != 0) && temp.content(to + StrideOffset(dr, dc)) == opp then 1 else 0)
      + CaptureInner(temp, to, opp, dr, dc + 1)
  }

  /** Outer capture loop: row steps dr..1. */
  function CaptureOuter(temp: Board, to: int, opp: Side, dr: int): nat
    requires -1 <= dr <= 2
    decreases 2 - dr
  {
    if dr > 1 then 0
    else CaptureInner(temp, to, opp, dr, -1) + CaptureOuter(temp, to, opp, dr + 1)
  }

  /** `capturedPieces`: neighbours of `to` on the post-move board holding the opponent's colour. */
  function CapturedPieces(temp: Board, to: int, opp: Side): nat
  {
    CaptureOuter(temp, to, opp, -1)
  }

  /** The offsets among ds whose cell (relative to `to`) holds opp. */
  function Hits(temp: Board, to: int, opp: Side, ds: seq<int>): set<int>
  {
    set d | d in ds && temp.content(to + d) == opp
  }

  function CountHits(temp: Board, to: int, opp: Side, ds: seq<int>): nat
  {
    if |ds| == 0 then 0
    else Hit(temp, to, opp, ds[0]) + CountHits(temp, to, opp, ds[1..])
  }

  lemma CountHitsCons(temp: Board, to: int, opp: Side, d: int, ds: seq<int>)
    ensures CountHits(temp, to, opp, [d] + ds)
      == Hit(temp, to, opp, d) + CountHits(temp, to, opp, ds)
  {
    assert ([d] + ds)[1..] == ds;
  }

  predicate Distinct(ds: seq<int>)
  {
    forall p, q :: 0 <= p < q < |ds| ==> ds[p] != ds[q]
  }

  lemma HitsCons(temp: Board, to: int, opp: Side, ds: seq<int>)
    requires |ds| > 0
    ensures Hits(temp, to, opp, ds)
      == (if temp.content(to + ds[0]) == opp then {ds[0]} else {}) + Hits(temp, to, opp, ds[1..])
  {
    forall d ensures d in ds <==> d == ds[0] || d in ds[1..] {
      assert ds == [ds[0]] + ds[1..];
    }
  }

  lemma {:induction false} CountHitsIsCardinality(temp: Board, to: int, opp: Side, ds: seq<int>)
    requires Distinct(ds)
    ensures CountHits(temp, to, opp, ds) == |Hits(temp, to, opp, ds)|
    decreases |ds|
  {
    if |ds| > 0 {
      var tail := ds[1..];
      assert Distinct(tail) by {
        forall p, q | 0 <= p < q < |tail| ensures tail[p] != tail[q] {
          assert tail[p] == ds[p + 1] && tail[q] == ds[q + 1];
        }
      }
      CountHitsIsCardinality(temp, to, opp, tail);
      assert ds[0] !in tail by {
        forall k | 0 <= k < |tail| ensures tail[k] != ds[0] {
          assert tail[k] == ds[k + 1];
        }
      }
      var first: set<int> := if temp.content(to + ds[0]) == opp then {ds[0]} else {};
      var later := Hits(temp, to, opp, tail);
      HitsCons(temp, to, opp, ds);
      assert ds[0] !in later;
      assert |first| == Hit(temp, to, opp, ds[0]);
      DisjointUnionCardinality(first, later);
    }
  }

  lemma DisjointUnionCardinality(a: set<int>, b: set<int>)
    requires a * b == {}
    ensures |a + b| == |a| + |b|
  {
  }

  /** 1 when the cell at offset d from `to` holds opp. */
  function Hit(temp: Board, to: int, opp: Side, d: int): nat
  {
    if temp.content(to + d) == opp then 1 else 0
  }

  /** The eight offsets in the order the two capture loops visit them. */
  const NeighbourOrder: seq<int> := [-8, -7, -6, -1, 1, 6, 7, 8]

  lemma CaptureUnrolled(temp: Board, to: int, opp: Side)
    ensures CapturedPieces(temp, to, opp)
      == Hit(temp, to, opp, -8) + Hit(temp, to, opp, -7) + Hit(temp, to, opp, -6)
       + Hit(temp, to, opp, -1) + Hit(temp, to, opp, 1)
       + Hit(temp, to, opp, 6) + Hit(temp, to, opp, 7) + Hit(temp, to, opp, 8)
  {
    assert CaptureInner(temp, to, opp, -1, 2) == 0;
    assert CaptureInner(temp, to, opp, -1, 1) == Hit(temp, to, opp, -6);
    assert CaptureInner(temp, to, opp, 0, 2) == 0;
    assert CaptureInner(temp, to, opp, 0, 1) == Hit(temp, to, opp, 1);
    assert CaptureInner(temp, to, opp, 1, 2) == 0;
    assert CaptureInner(temp, to, opp, 1, 1) == Hit(temp, to, opp, 8);
    assert CaptureOuter(temp, to, opp, 2) == 0;
  }

  /** CountHits over the last four offsets, unrolled. */
  lemma CountHitsUpperHalf(temp: Board, to: int, opp: Side)
    ensures CountHits(temp, to, opp, [1, 6, 7, 8])
      == Hit(temp, to, opp, 1) + Hit(temp, to, opp, 6) + Hit(temp, to, opp, 7) + Hit(temp, to, opp, 8)
  {
    var t1: seq<int> := [8];
    assert CountHits(temp, to, opp, t1) == Hit(temp, to, opp, 8) by {
      assert t1[1..] == [];
    }
    var t2 := [7] + t1;
    CountHitsCons(temp, to, opp, 7, t1);
    var t3 := [6] + t2;
    CountHitsCons(temp, to, opp, 6, t2);
    var t4 := [1] + t3;
    CountHitsCons(temp, to, opp, 1, t3);
    assert t4 == [1, 6, 7, 8];
  }

  lemma CountHitsUnrolled(temp: Board, to: int, opp: Side)
    ensures CountHits(temp, to, opp, NeighbourOrder)
      == Hit(temp, to, opp, -8) + Hit(temp, to, opp, -7) + Hit(temp, to, opp, -6)
       + Hit(temp, to, opp, -1) + Hit(temp, to, opp, 1)
       + Hit(temp, to, opp, 6) + Hit(temp, to, opp, 7) + Hit(temp, to, opp, 8)
  {
    var t4: seq<int> := [1, 6, 7, 8];
    CountHitsUpperHalf(temp, to, opp);
    var t5 := [-1] + t4;
    CountHitsCons(temp, to, opp, -1, t4);
    var t6 := [-6] + t5;
    CountHitsCons(temp, to, opp, -6, t5);
    var t7 := [-7] + t6;
    CountHitsCons(temp, to, opp, -7, t6);
    var t8 := [-8] + t7;
    CountHitsCons(temp, to, opp, -8, t7);
    assert t8 == NeighbourOrder;
  }

  lemma CapturedPiecesIsCountHits(temp: Board, to: int, opp: Side)
    ensures CapturedPieces(temp, to, opp) == CountHits(temp, to, opp, NeighbourOrder)
  {
    CaptureUnrolled(temp, to, opp);
    CountHitsUnrolled(temp, to, opp);
  }

  lemma NeighbourOrderListsOffsets()
    ensures Distinct(NeighbourOrder)
    ensures forall d :: d in NeighbourOrder <==> d in NeighbourOffsets
  {
  }

  /** The capture count of the source: the number of the eight offsets in NeighbourOffsets
      whose cell holds the opponent, hence between 0 and 8. The offsets are the literal
      stride-7 ones; whether they are the geometric neighbours depends on `Board.index`. */
  lemma CapturedPiecesCountsNeighbours(temp: Board, to: int, opp: Side)
    ensures CapturedPieces(temp, to, opp)
      == |set d | d in NeighbourOffsets && temp.content(to + d) == opp|
    ensures CapturedPieces(temp, to, opp) <= 8
  {
    CapturedPiecesIsCountHits(temp, to, opp);
    NeighbourOrderListsOffsets();
    CountHitsOfEnumeration(temp, to, opp, NeighbourOrder, NeighbourOffsets);
  }

  /** Counting the hits along a duplicate-free enumeration of a set counts the set's hits. */
  lemma CountHitsOfEnumeration(temp: Board, to: int, opp: Side, ds: seq<int>, offsets: set<int>)
    requires Distinct(ds)
    requires forall d :: d in ds <==> d in offsets
    ensures CountHits(temp, to, opp, ds) == |set d | d in offsets && temp.content(to + d) == opp|
    ensures CountHits(temp, to, opp, ds) <= |offsets|
  {
    CountHitsIsCardinality(temp, to, opp, ds);
    var hits := Hits(temp, to, opp, ds);
    assert hits == set d | d in offsets && temp.content(to + d) == opp;
    SubsetCardinality(hits, offsets);
  }

  lemma SubsetCardinality(a: set<int>, b: set<int>)
    requires a <= b
    ensures |a| <= |b|
  {
    assert b == a + (b - a);
  }

  /** The stride-7 offsets equal the row-major neighbour offsets `w * dr + dc` of a store
      with row width w exactly when w is 7. */
  lemma NeighbourStrideMatchesOnlyWidthSeven(w: int)
    ensures (forall dr | -1 <= dr <= 1 :: NeighbourStride * dr == w * dr) <==> w == 7
  {
    if w != 7 {
      assert NeighbourStride * 1 != w * 1;
    }
  }

  /** The capture term of Terms is the capture count on the post-move board at the
      destination's index. */
  lemma TermsCaptured(rules: Rules, b: Board, me: Side, m: Move)
    ensures Terms(rules, b, me, m).captured
      == CapturedPieces(rules.createMove(b, m), rules.index(m.col1, m.row1), Opposite(me))
  {
  }

  /** Flat index of an unpadded row-major 7x7 store. */
  function RowMajorSeven(col: char, row: char): int
  {
    (row as int - '1' as int) * 7 + (col as int - 'a' as int)
  }

  /** Flat index of a row-major store of width 9 with a one-cell border around the grid. */
  function PaddedNine(col: char, row: char): int
  {
    (row as int - '1' as int + 1) * 9 + (col as int - 'a' as int + 1)
  }

  /** Post-move store of width 7: the mover's piece on g2, an opponent piece on a3, nothing
      else. */
  function WrapScene(me: Side, i: int): PieceState
  {
    if i == RowMajorSeven('a', '3') then Opposite(me)
    else if i == RowMajorSeven('g', '2') then me
    else Empty
  }

  /** With the unpadded width-7 index, a move to g2 on a post-move board holding only the
      mover's piece on g2 and an opponent piece on a3 counts that piece as captured, though a3
      is six columns away: the +1 offset wraps past the side edge. All eight
      offsets from g2 (index 13) stay inside the 49-cell store. */
  lemma CaptureWrapsOnUnpaddedSeven(rules: Rules, b: Board, me: Side, m: Move)
    requires forall c, r :: rules.index(c, r) == RowMajorSeven(c, r)
    requires m.col1 == 'g' && m.row1 == '2'
    requires forall i :: rules.createMove(b, m).content(i) == WrapScene(me, i)
    ensures Terms(rules, b, me, m).captured == 1
    ensures forall d | d in NeighbourOffsets :: 0 <= RowMajorSeven('g', '2') + d < 49
    ensures Chebyshev(Move('g', '2', 'a', '3')) == 6
  {
    var temp := rules.createMove(b, m);
    var to := rules.index('g', '2');
    var opp := Opposite(me);
    TermsCaptured(rules, b, me, m);
    CaptureUnrolled(temp, to, opp);
    assert to == 13;
    assert Hit(temp, to, opp, -8) == 0 && Hit(temp, to, opp, -7) == 0 && Hit(temp, to, opp, -6) == 0;
    assert Hit(temp, to, opp, -1) == 0 && Hit(temp, to, opp, 1) == 1;
    assert Hit(temp, to, opp, 6) == 0 && Hit(temp, to, opp, 7) == 0 && Hit(temp, to, opp, 8) == 0;
  }

  /** The flat indices of the 7x7 grid inside the width-9 padded store; the rest is border. */
  predicate InPaddedGrid(i: int)
  {
    1 <= i / 9 <= 7 && 1 <= i % 9 <= 7
  }

  /** Post-move padded store of width 9: the mover's piece on b1, an opponent piece on b2,
      the border Blocked, nothing else. */
  function PaddedScene(me: Side, i: int): PieceState
  {
    if i == PaddedNine('b', '2') then Opposite(me)
    else if i == PaddedNine('b', '1') then me
    else if !InPaddedGrid(i) then Blocked
    else Empty
  }

  /** With a padded width-9 index (border cells Blocked), a move to b1 on a post-move board
      holding only the mover's piece on b1 and an opponent piece on b2 counts no capture,
      though b2 is the cell directly above: its offset is 9, which the stride-7 offsets never
      reach. */
  lemma CaptureMissesOnPaddedNine(rules: Rules, b: Board, me: Side, m: Move)
    requires forall c, r :: rules.index(c, r) == PaddedNine(c, r)
    requires m.col1 == 'b' && m.row1 == '1'
    requires forall i :: rules.createMove(b, m).content(i) == PaddedScene(me, i)
    ensures Terms(rules, b, me, m).captured == 0
    ensures Chebyshev(Move('b', '1', 'b', '2')) == 1
  {
    var temp := rules.createMove(b, m);
    var to := rules.index('b', '1');
    var opp := Opposite(me);
    TermsCaptured(rules, b, me, m);
    CaptureUnrolled(temp, to, opp);
    assert to == 11;
    assert Hit(temp, to, opp, -8) == 0 && Hit(temp, to, opp, -7) == 0 && Hit(temp, to, opp, -6) == 0;
    assert Hit(temp, to, opp, -1) == 0 && Hit(temp, to, opp, 1) == 0;
    assert Hit(temp, to, opp, 6) == 0 && Hit(temp, to, opp, 7) == 0 && Hit(temp, to, opp, 8) == 0;
  }

  // ---------------------------------------------------------------- distance penalty

  /** 0 for a move of Manhattan distance exactly 1, 1 otherwise. */
  function DistancePenalty(m: Move): (p: int)
    ensures p == 0 || p == 1
  {
    if Manhattan(m) == 1 then 0 else 1
  }

  /** The penalty does not follow the clone/jump split: among clones only the orthogonal
      ones escape it, and every jump pays it. */
  lemma PenaltyVersusShape(m: Move)
    ensures IsClone(m) ==> (DistancePenalty(m) == 0 <==> ColDelta(m) == 0 || RowDelta(m) == 0)
    ensures IsJump(m) ==> DistancePenalty(m) == 1
    ensures DistancePenalty(m) == 0 ==> IsClone(m)
  {
  }

  /** The diagonal clone c1-d2 pays the same penalty as a jump. */
  lemma DiagonalClonePenalised()
    ensures IsClone(Move('c', '1', 'd', '2')) && DistancePenalty(Move('c', '1', 'd', '2')) == 1
    ensures IsJump(Move('c', '1', 'c', '3')) && DistancePenalty(Move('c', '1', 'c', '3')) == 1
    ensures IsClone(Move('b', '1', 'b', '2')) && DistancePenalty(Move('b', '1', 'b', '2')) == 0
  {
  }

  // ---------------------------------------------------------------- control term

  /** Running counts of the control loop: cells of my colour and of the opponent's. */
  datatype Tally = Tally(mine: nat, theirs: nat)

  /** Inner control loop: columns col..'g' of one row. */
  function TallyCols(rules: Rules, b: Board, me: Side, row: char, col: char): (t: Tally)
    requires '1' <= row <= '7' && 'a' <= col <= 'h'
    ensures t.mine + t.theirs <= 'h' as int - col as int
    decreases 'h' as int - col as int
  {
    if col > 'g' then Tally(0, 0)
    else
      var rest := TallyCols(rules, b, me, row, (col as int + 1) as char);
      var content := b.content(rules.index(col, row));
      if content == me then Tally(rest.mine + 1, rest.theirs)
      else if content == Opposite(me) then Tally(rest.mine, rest.theirs + 1)
      else rest
  }

  /** Outer control loop: rows row down to '1'. */
  function TallyRows(rules: Rules, b: Board, me: Side, row: char): (t: Tally)
    requires '0' <= row <= '7'
    ensures t.mine + t.theirs <= 7 * (row as int - '0' as int)
    decreases row as int
  {
    if row < '1' then Tally(0, 0)
    else
      var here := TallyCols(rules, b, me, row, 'a');
      var rest := TallyRows(rules, b, me, (row as int - 1) as char);
      Tally(here.mine + rest.mine, here.theirs + rest.theirs)
  }

  /** `controlScore`: my pieces minus the opponent's over the 49 cells, so within -49..49. */
  function ControlScore(rules: Rules, b: Board, me: Side): (s: int)
    ensures -49 <= s <= 49
  {
    var t := TallyRows(rules, b, me, '7');
    t.mine - t.theirs
  }

  lemma {:induction false} TallyColsSwap(rules: Rules, b: Board, me: Side, row: char, col: char)
    requires '1' <= row <= '7' && 'a' <= col <= 'h'
    ensures TallyCols(rules, b, Opposite(me), row, col).mine == TallyCols(rules, b, me, row, col).theirs
    ensures TallyCols(rules, b, Opposite(me), row, col).theirs == TallyCols(rules, b, me, row, col).mine
    decreases 'h' as int - col as int
  {
    if col <= 'g' {
      TallyColsSwap(rules, b, me, row, (col as int + 1) as char);
      OppositeInvolution(me);
    }
  }

  lemma {:induction false} TallyRowsSwap(rules: Rules, b: Board, me: Side, row: char)
    requires '0' <= row <= '7'
    ensures TallyRows(rules, b, Opposite(me), row).mine == TallyRows(rules, b, me, row).theirs
    ensures TallyRows(rules, b, Opposite(me), row).theirs == TallyRows(rules, b, me, row).mine
    decreases row as int
  {
    if row >= '1' {
      TallyColsSwap(rules, b, me, row, 'a');
      TallyRowsSwap(rules, b, me, (row as int - 1) as char);
    }
  }

  /** Swapping the colour negates the control score. */
  lemma ControlScoreAntisymmetric(rules: Rules, b: Board, me: Side)
    ensures ControlScore(rules, b, Opposite(me)) == -ControlScore(rules, b, me)
  {
    TallyRowsSwap(rules, b, me, '7');
  }

  // ---------------------------------------------------------------- mobility term

  /** `potentialMovesScore`: my candidate-move count minus the opponent's. */
  function PotentialMovesScore(rules: Rules, b: Board, me: Side): (s: int)
    ensures -1176 <= s <= 1176
  {
    PossibleMovesSpec(rules, b, me);
    PossibleMovesSpec(rules, b, Opposite(me));
    |PossibleMoves(rules, b, me)| - |PossibleMoves(rules, b, Opposite(me))|
  }

  /** Swapping the colour negates the mobility score. */
  lemma PotentialMovesScoreAntisymmetric(rules: Rules, b: Board, me: Side)
    ensures PotentialMovesScore(rules, b, Opposite(me)) == -PotentialMovesScore(rules, b, me)
  {
    OppositeInvolution(me);
  }

  // ---------------------------------------------------------------- the score

  /** The four terms of one candidate's evaluation. */
  datatype ScoreTerms = ScoreTerms(captured: nat, penalty: int, control: int, mobility: int)

  /** The terms of `evaluateMove(board, m)` for the AI playing `me`: all are read off the
      board returned by `createMove`, except the penalty, which depends on m alone. */
  function Terms(rules: Rules, b: Board, me: Side, m: Move): (t: ScoreTerms)
    ensures t.captured <= 8
    ensures t.penalty == 0 <==> Manhattan(m) == 1
    ensures t.penalty == 0 || t.penalty == 1
    ensures -49 <= t.control <= 49
    ensures -1176 <= t.mobility <= 1176
  {
    var temp := rules.createMove(b, m);
    var to := rules.index(m.col1, m.row1);
    CapturedPiecesCountsNeighbours(temp, to, Opposite(me));
    ScoreTerms(
      CapturedPieces(temp, to, Opposite(me)),
      DistancePenalty(m),
      ControlScore(rules, temp, me),
      PotentialMovesScore(rules, temp, me))
  }

  function Weighted(t: ScoreTerms): int
  {
    CaptureWeight * t.captured - DistancePenaltyWeight * t.penalty
    + ControlWeight * t.control + PotentialMovesWeight * t.mobility
  }

  const LowestScore := -3775
  const HighestScore := 3853

  /** `evaluateMove`: the weighted sum of the terms; it lies within -3775..3853, far inside
      the 32-bit range, so the source's int arithmetic cannot overflow. */
  function EvaluateMove(rules: Rules, b: Board, me: Side, m: Move): (score: int)
    ensures LowestScore <= score <= HighestScore
  {
    Weighted(Terms(rules, b, me, m))
  }

  /** The evaluation reads the game board only through the board `createMove` returns: two
      boards whose post-move boards agree score the move alike. */
  lemma EvaluationReadsOnlyPostMoveBoard(rules: Rules, b1: Board, b2: Board, me: Side, m: Move)
    requires rules.createMove(b1, m) == rules.createMove(b2, m)
    ensures EvaluateMove(rules, b1, me, m) == EvaluateMove(rules, b2, me, m)
  {
  }
}

=== FILE: selection.dfy ===
/** Move selection (`findMove`): score every candidate, shuffle, keep the best-scoring ones,
    pick one of them. The shuffle and the random index are nondeterministic choices. */
module Selection {
  import opened Pieces
  import opened Moves
  import opened Boards
  import opened MoveGen
  import opened Scoring

  /** `Integer.MIN_VALUE`, the initial best score. */
  const IntMin := -0x8000_0000

  /** A candidate move with its score (`ScoredMove`). */
  datatype ScoredMove = ScoredMove(move: Move, score: int)

  /** The largest score among the first n entries. */
  function MaxPrefix(s: seq<ScoredMove>, n: nat): (best: int)
    requires 0 < n <= |s|
    ensures exists k :: 0 <= k < n && s[k].score == best
    ensures forall k :: 0 <= k < n ==> s[k].score <= best
    decreases n
  {
    if n == 1 then s[0].score
    else
      var rest := MaxPrefix(s, n - 1);
      if s[n - 1].score > rest then s[n - 1].score else rest
  }

  /** The largest score in a non-empty list. */
  function MaxScore(s: seq<ScoredMove>): (best: int)
    requires |s| > 0
    ensures exists k :: 0 <= k < |s| && s[k].score == best
    ensures forall k :: 0 <= k < |s| ==> s[k].score <= best
  {
    MaxPrefix(s, |s|)
  }

  /** The moves among the first n entries whose score is v, in list order. */
  function MovesScoringPrefix(s: seq<ScoredMove>, n: nat, v: int): seq<Move>
    requires n <= |s|
    decreases n
  {
    if n == 0 then []
    else MovesScoringPrefix(s, n - 1, v) + (if s[n - 1].score == v then [s[n - 1].move] else [])
  }

  /** The moves of s whose score is v, in list order. */
  function MovesScoring(s: seq<ScoredMove>, v: int): seq<Move>
  {
    MovesScoringPrefix(s, |s|, v)
  }

  lemma {:induction false} MovesScoringPrefixMembers(s: seq<ScoredMove>, n: nat, v: int)
    requires n <= |s|
    ensures forall m :: m in MovesScoringPrefix(s, n, v) <==>
      exists k :: 0 <= k < n && s[k].move == m && s[k].score == v
    decreases n
  {
    if n > 0 {
      MovesScoringPrefixMembers(s, n - 1, v);
    }
  }

  lemma MovesScoringMembers(s: seq<ScoredMove>, v: int)
    ensures forall m :: m in MovesScoring(s, v) <==>
      exists k :: 0 <= k < |s| && s[k].move == m && s[k].score == v
  {
    MovesScoringPrefixMembers(s, |s|, v);
  }

  lemma {:induction false} MovesScoringNone(s: seq<ScoredMove>, n: nat, v: int)
    requires n <= |s|
    requires forall k :: 0 <= k < n ==> s[k].score < v
    ensures MovesScoringPrefix(s, n, v) == []
    decreases n
  {
    if n > 0 {
      MovesScoringNone(s, n - 1, v);
    }
  }

  /** The tie-collecting loop of `findMove`: bestScore is the maximum score (or MIN_VALUE for an
      empty list), and bestMoves lists, in input order, exactly the moves that reach it. */
  method SelectBest(scored: seq<ScoredMove>) returns (bestScore: int, bestMoves: seq<Move>)
    requires forall k :: 0 <= k < |scored| ==> IntMin <= scored[k].score
    ensures |scored| == 0 ==> bestScore == IntMin && bestMoves == []
    ensures |scored| > 0 ==> bestScore == MaxScore(scored) && |bestMoves| > 0
    ensures bestMoves == MovesScoring(scored, bestScore)
    ensures forall m :: m in bestMoves <==>
      exists k :: 0 <= k < |scored| && scored[k].move == m && scored[k].score == bestScore
  {
    bestScore := IntMin;
    bestMoves := [];
    for k := 0 to |scored|
      invariant k == 0 ==> bestScore == IntMin
      invariant k > 0 ==> bestScore == MaxPrefix(scored, k)
      invariant bestMoves == MovesScoringPrefix(scored, k, bestScore)
    {
      var sm := scored[k];
      if sm.score > bestScore {
        MovesScoringNone(scored, k, sm.score);
        bestScore := sm.score;
        bestMoves := [sm.move];
      } else if sm.score == bestScore {
        bestMoves := bestMoves + [sm.move];
      }
    }
    assert bestMoves == MovesScoring(scored, bestScore);
    MovesScoringMembers(scored, bestScore);
    if |scored| > 0 {
      var k :| 0 <= k < |scored| && scored[k].score == bestScore;
      assert scored[k].move in bestMoves;
    }
  }

  /** The best score and the set of tied-best moves do not depend on the order of the list,
      so the shuffle before the selection loop cannot change them. */
  lemma TieSetIndependentOfOrder(s1: seq<ScoredMove>, s2: seq<ScoredMove>)
    requires |s1| > 0 && multiset(s1) == multiset(s2)
    ensures |s2| > 0 && MaxScore(s1) == MaxScore(s2)
    ensures forall m :: m in MovesScoring(s1, MaxScore(s1)) <==> m in MovesScoring(s2, MaxScore(s2))
  {
    assert s1[0] in multiset(s2);
    var m1 := MaxScore(s1);
    var m2 := MaxScore(s2);
    var k1 :| 0 <= k1 < |s1| && s1[k1].score == m1;
    assert s1[k1] in multiset(s2);
    var k2 :| 0 <= k2 < |s2| && s2[k2].score == m2;
    assert s2[k2] in multiset(s1);
    MovesScoringMembers(s1, m1);
    MovesScoringMembers(s2, m2);
    forall m ensures m in MovesScoring(s1, m1) <==> m in MovesScoring(s2, m2) {
      if m in MovesScoring(s1, m1) {
        var k :| 0 <= k < |s1| && s1[k].move == m && s1[k].score == m1;
        assert s1[k] in multiset(s2);
      }
      if m in MovesScoring(s2, m2) {
        var k :| 0 <= k < |s2| && s2[k].move == m && s2[k].score == m2;
        assert s2[k] in multiset(s1);
      }
    }
  }

  /** The scoring loop of `findMove`, for any evaluation (`findMove` passes `evaluateMove`):
      one ScoredMove per candidate, in candidate order. */
  method ScoreEach(moves: seq<Move>, eval: Move -> int) returns (scored: seq<ScoredMove>)
    ensures |scored| == |moves|
    ensures forall p :: 0 <= p < |moves| ==> scored[p] == ScoredMove(moves[p], eval(moves[p]))
  {
    scored := [];
    for k := 0 to |moves|
      invariant |scored| == k
      invariant forall p :: 0 <= p < k ==> scored[p] == ScoredMove(moves[p], eval(moves[p]))
    {
      scored := scored + [ScoredMove(moves[k], eval(moves[k]))];
    }
  }

  /** Every entry of a list scored by eval lies within the range of eval. */
  lemma ScoresBounded(moves: seq<Move>, eval: Move -> int, scored: seq<ScoredMove>, lo: int, hi: int)
    requires |scored| == |moves|
    requires forall p :: 0 <= p < |moves| ==> scored[p] == ScoredMove(moves[p], eval(moves[p]))
    requires forall m :: lo <= eval(m) <= hi
    ensures forall p :: 0 <= p < |scored| ==> lo <= scored[p].score <= hi
  {
  }

  /** `findMove` for the AI playing `me`: scores the moves of the side to move on (a copy of)
      the game board, shuffles them, and returns one of the best. The shuffle and the random
      index are arbitrary; whatever they are, the move returned is a candidate and no
      candidate scores higher. */
  method FindMove(rules: Rules, game: Board, me: Side) returns (chosen: Move)
    requires |PossibleMoves(rules, game, game.next)| > 0
    ensures chosen in PossibleMoves(rules, game, game.next)
    ensures forall m :: m in PossibleMoves(rules, game, game.next) ==>
      EvaluateMove(rules, game, me, m) <= EvaluateMove(rules, game, me, chosen)
  {
    var b := game;
    var listOfMoves := PossibleMoves(rules, b, b.next);
    var eval := m => EvaluateMove(rules, b, me, m);
    var scoredMoves := ScoreEach(listOfMoves, eval);
    ScoresBounded(listOfMoves, eval, scoredMoves, LowestScore, HighestScore);
    chosen := PickBest(scoredMoves);
    BestScoredIsBestMove(listOfMoves, eval, scoredMoves, chosen);
  }

  /** A move carrying the maximum of a list scored by eval is a candidate no candidate
      outscores. */
  lemma BestScoredIsBestMove(moves: seq<Move>, eval: Move -> int, scored: seq<ScoredMove>, chosen: Move)
    requires |scored| == |moves| > 0
    requires forall p :: 0 <= p < |moves| ==> scored[p] == ScoredMove(moves[p], eval(moves[p]))
    requires exists p :: (0 <= p < |scored|
      && scored[p].move == chosen && scored[p].score == MaxScore(scored))
    ensures chosen in moves
    ensures forall m :: m in moves ==> eval(m) <= eval(chosen)
  {
    var p :| 0 <= p < |scored| && scored[p].move == chosen && scored[p].score == MaxScore(scored);
    assert moves[p] == chosen;
    forall m | m in moves
      ensures eval(m) <= eval(chosen)
    {
      var q :| 0 <= q < |moves| && moves[q] == m;
      assert scored[q].score <= scored[p].score;
    }
  }

  /** Shuffle, tie collection and random pick of `findMove`, on the scored list. */
  method PickBest(scoredMoves: seq<ScoredMove>) returns (chosen: Move)
    requires |scoredMoves| > 0
    requires forall k :: 0 <= k < |scoredMoves| ==> IntMin <= scoredMoves[k].score
    ensures exists p :: (0 <= p < |scoredMoves|
      && scoredMoves[p].move == chosen && scoredMoves[p].score == MaxScore(scoredMoves))
  {
    assert multiset(scoredMoves) == multiset(scoredMoves);
    var shuffled: seq<ScoredMove> :| multiset(shuffled) == multiset(scoredMoves);
    forall k | 0 <= k < |shuffled| ensures IntMin <= shuffled[k].score {
      assert shuffled[k] in multiset(scoredMoves);
    }
    TieSetIndependentOfOrder(scoredMoves, shuffled);
    var bestScore, bestMoves := SelectBest(shuffled);
    var randomIndex :| 0 <= randomIndex < |bestMoves|;
    chosen := bestMoves[randomIndex];
    assert chosen in bestMoves;
    var j :| 0 <= j < |shuffled| && shuffled[j].move == chosen && shuffled[j].score == bestScore;
    assert shuffled[j] in multiset(scoredMoves);
  }
}

=== FILE: wrappers.dfy ===
/** Option type used for the source's "may throw / may be absent" results. */
module Wrappers {

  datatype Option<+T> = None | Some(value: T)
}
